=== FILE: README.md ===
# BurgerStack start-up configuration and logger options, in Dafny

This project models the part of the BurgerStack server that makes decisions
at start-up:

- `Config.initGlobalConfig` (`config/config.ts`). It resolves `NODE_ENV`,
  falling back to `development`. It merges the base and environment layers
  of the asset manifest and of the configuration values. It applies the
  `local-<env>` override only when exactly one such file matches and that
  file exists. It builds the `files` section from the asset patterns. It
  turns secure mode off when the TLS key or certificate is missing. Last, it
  warns when production runs with the placeholder session secret
  `BurgerStack`.
- The option derivation of the logger (`config/libs/logger.ts`):
  - `getLogFormat` limits the request-log format to `combined`, `common`,
    `dev`, `short` and `tiny`.
  - `getLogOptions` builds the winston File-transport options, with defaults
    for `maxsize`, `maxFiles` and `json`.
  - `setupFileLogger` decides whether the file transport is added.

Configuration values are JavaScript values (`Js.Value`: undefined, null,
booleans, integer numbers, strings, arrays and objects). This keeps the
source's truthiness tests exact: `!config.secure`, `maxsize ? … : 10485760`,
`log && log.format`. The same holds for `_.has` and for the JSON copy
`getLogOptions` makes of the global configuration. A thrown TypeError or a
failing `require` is the `Throw` outcome of `Js.Completion`.

Everything start-up reads from outside is a field of `Config.Host`:
`NODE_ENV`, the glob results, `fs.existsSync`, `require` (as a loader from a
`Layer` to a value, or nothing when it throws), `getGlobbedPaths` and
lodash's `_.merge`. The logger takes the resolved configuration, `NODE_ENV`,
and the outcome of `fs.openSync`. The console warnings printed on the way
to a normal result are recorded as `Diagnostics.Diag` values. Output
printed before a throw is not kept (see "Left out").

Files: `js.dfy` (JavaScript values), `diagnostics.dfy` (console lines),
`config.dfy` (`config/config.ts`), `logger.dfy` (`config/libs/logger.ts`).

Three behaviours of the code shape the model:

- Start-up can throw. Examples: a TLS file setting that is not a string
  (`path.resolve` rejects it), a missing `assets.server`, a missing
  environment layer file, or `NODE_ENV` unset while a file named
  `undefined.js` matches the glob.
- The environment is replaced only when no `config/env/<NODE_ENV>` file
  matched. Any name with such a file is kept.
- Lodash's `_.merge` is passed in as a function, and nothing is assumed
  about it. It merges arrays index by index.

## Model

| member | source | states |
|---|---|---|
| Config.ValidateEnvironmentVariable | config/config.ts:37-53 | With no matching environment file NODE_ENV becomes `development`, otherwise it is kept. An error line is printed exactly on fallback. It names the requested environment when NODE_ENV was set and non-empty, and says "NODE_ENV is not defined" otherwise. The result is unusable only if an unset NODE_ENV itself matched a file |
| Config.EnvironmentValidationSettles | config/config.ts:38-50 | When a `development` file exists, validating the name the first validation chose (globbing again for that name) keeps it and prints nothing |
| Config.ValidateSecureMode | config/config.ts:59-77 | Returns `true` and leaves the config untouched unless `secure.ssl === true`. If either file is missing, sets `secure.ssl` to false, returns `false` and prints the error. Throws when a file setting is not a string. Afterwards `ssl` is on only if both files exist, and nothing but `secure.ssl` changed |
| Config.SecureModeIdempotent | config/config.ts:61-76 | Validating an already validated configuration returns `true` and changes nothing |
| Config.ValidateSessionSecret | config/config.ts:82-99 | Returns `false` exactly in production with the secret `BurgerStack`, whatever `testing` is. `testing` only suppresses the warning. The result carries no configuration, so nothing is mutated |
| Config.ServerFiles | config/config.ts:113-127 | `files.server` has exactly the keys mdmodels, pgmodels, routes, configs, sockets and policies. Each holds the expansion of its `assets.server` pattern (mongodbModels, postgresModels, routes, config, sockets, policies) |
| Config.InitGlobalConfigFiles | config/config.ts:104-128 | `assets` is the given manifest and `files.client` is empty. `files.server` is as in ServerFiles and every other setting is kept. Throws exactly when the config is not an object or `assets`/`assets.server` is null or undefined |
| Config.OrEmpty | config/config.ts:141 | The `or {}` fallback keeps a truthy layer and replaces a falsy one by an empty object |
| Config.ApplyLocalOverride | config/config.ts:155-163 | The override is merged only when the glob returns exactly one path and that path exists. With zero matches, several matches or a missing file the configuration is returned unchanged |
| Config.LocalOverrideSkippedChangesNothing | config/config.ts:155-163 | When the override gate fails, start-up resolves exactly as if no local-override file had been searched for |
| Config.ResolveFor | config/config.ts:137-174 | After the NODE_ENV step, the only lines start-up prints are the TLS and session-secret warnings, at most one of each. A base layer that cannot be loaded aborts start-up |
| Config.CheckSettings | config/config.ts:168-172 | The closing checks throw only for a requested secure mode with a non-string file setting. The TLS line is printed exactly when secure mode was requested and a file is missing, and secure mode survives exactly when both files exist. Without the TLS line the configuration is returned exactly as given; with it `secure.ssl` is false and nothing else changed. The secret warning is printed exactly for production with the placeholder. Each line appears at most once |
| Config.InitGlobalConfig | config/config.ts:133-175 | Start-up throws when NODE_ENV is unset yet a file matched its glob, or when a base layer cannot be loaded. When it completes, it has settled on `development` exactly when no environment file matched, and on the requested name otherwise, and it has printed at most three lines |
| Config.OverriddenSucceeds | config/config.ts:137-163 | Merging the layers and the local override completes exactly when the four base and environment `require`s succeed, and the local override's `require` does too whenever the override applies |
| Config.ResolveForSucceeds | config/config.ts:137-174 | The stages after NODE_ENV complete exactly when the layers load, the merged configuration is an object, `assets.server` is present, and a requested secure mode names its TLS files as strings |
| Config.InitGlobalConfigSucceeds | config/config.ts:133-175 | Start-up completes exactly when NODE_ENV yields a name (it is set, or no environment file matched) and the layers for that name load and are usable as above. The session secret and the existence of the TLS files never make it fail |
| Config.StartUpDegrades | config/config.ts:133-175 | In production, with layers that load and are usable, a requested secure mode whose files are missing and the placeholder secret, start-up still completes. Secure mode is off and both the TLS and the secret warnings are printed |
| Config.DegradedHostStartsUp | config/config.ts:133-175 | A concrete production host, where every `require` returns a layer asking for secure mode with absent files and the placeholder secret, starts up and prints the TLS warning |
| Config.ResolvedEnvironment | config/config.ts:133-175 | The resolved environment is `development` when no environment file matched, with the matching error line first. Otherwise it is the requested name and no environment error is printed |
| Config.ResolvedSslNeedsMaterial | config/config.ts:165-174 | In the configuration start-up hands out, `secure.ssl` is on only if both the key and the certificate exist. A TLS warning implies it is off |
| Config.ResolvedSslWarning | config/config.ts:155-174 | A successful start-up prints the TLS warning exactly when the configuration after the local override asked for secure mode and a TLS file is missing. Secure mode stays on exactly when it was asked for and both files exist. Without the warning the `secure` section is the one the configuration asked with; with it `secure.ssl` is false |
| Config.ResolvedFilesShape | config/config.ts:165-170 | The resolved configuration carries the `assets` and `files` sections built from the merged manifest. The TLS check does not disturb them |
| Config.ResolvedSettingsKept | config/config.ts:155-174 | Every setting other than `secure`, `assets` and `files` is what the layers and the local override produced. In particular the session secret is never rewritten |
| Config.ResolvedSecretWarning | config/config.ts:171-174 | The placeholder-secret warning is printed exactly when production runs with the secret `BurgerStack` |
| Logger.RequestedFormat | config/libs/logger.ts:132 | A non-empty string `log.format` is asked for as written. A missing `log` or a falsy `log.format` asks for `combined`. The conversion throws exactly when a truthy format does not convert to a string (an object with its own `toString` setting) |
| Logger.GetLogFormat | config/libs/logger.ts:131-146 | Throws exactly when the requested format does not convert to a string. Otherwise the result is always one of the five valid formats. A valid requested format is returned unchanged without a warning. Anything else becomes `combined`, with a warning exactly when NODE_ENV is not `test`. A missing `log` or `log.format` gives `combined` |
| Logger.LogFormatStable | config/libs/logger.ts:132-145 | When the format was chosen without a throw, writing it back into `log.format` and asking again yields the same format and no warning |
| Logger.StringFormatAcceptedIffListed | config/libs/logger.ts:132-136 | A string format never throws, and it is used exactly when it is on the whitelist |
| Logger.OwnToStringFormatThrows | config/libs/logger.ts:132 | A format object with its own `toString` setting makes `getLogFormat` throw instead of falling back to `combined` |
| Logger.FormatIsStringified | config/libs/logger.ts:132-135 | The format is converted with `toString()` before the check. `["dev"]` is accepted as `dev`, and the number 5 falls back to `combined` with a warning |
| Logger.GetLogOptions | config/libs/logger.ts:79-110 | Throws exactly when the global configuration is `undefined` (its JSON copy is made even when an argument is given) or the configuration read has no `log` section, and when both path settings are present but one of them does not convert to a string. Returns `false` exactly when `log.fileLogger.directoryPath` or `fileName` is absent. Otherwise `filename` is directory + "/" + file name. A falsy `maxsize`/`maxFiles` (0 included) becomes 10485760/2. `json` is the configured value whenever the key exists and `false` otherwise. The fixed fields are level `debug`, no colour, eol "\n", tailable |
| Logger.ExplicitOptionsReplaceConfig | config/libs/logger.ts:81-84 | With a truthy argument the contents of a defined global configuration have no influence on the options |
| Logger.UndefinedGlobalConfigThrows | config/libs/logger.ts:81 | With the global configuration `undefined`, `getLogOptions` throws whatever the argument, because `JSON.parse(undefined)` throws |
| Logger.GlobalCopyIsStable | config/libs/logger.ts:81 | Reading a configuration that already is a JSON copy gives the same options as reading the original |
| Logger.GlobalFileLoggerConfigured | config/libs/logger.ts:81-93 | Read from the global configuration, the file logger is configured exactly when the directory and the file name are present and not `undefined`. For an object configuration a missing or `undefined` setting gives `false`, and a throw needs both settings present |
| Logger.UndefinedDirectoryIgnoredGlobally | config/libs/logger.ts:81-91 | A `directoryPath` set to `undefined` in the global configuration is dropped by the JSON copy, so `getLogOptions` returns `false` |
| Logger.UndefinedDirectoryPrintedFromArgument | config/libs/logger.ts:82-93 | The same configuration passed as the argument keeps the key, and the path becomes `undefined/app.log` |
| Logger.OwnToStringPathThrows | config/libs/logger.ts:93 | A directory setting that is an object with its own `toString` makes building the path throw, although both settings are present |
| Logger.LogPathJoinsStrings | config/libs/logger.ts:93 | For string settings the log path is directory + "/" + file name |
| Logger.SetupFileLogger | config/libs/logger.ts:42-72 | Returns `false` without touching the logger when `getLogOptions()` yields `false`. A throw there escapes. Returns `true` exactly when the options exist and the file opened. The transport is added only for a non-zero descriptor. The console transport is removed exactly when `log.fileOnly` is set and truthy. A failed open prints the File-transport error unless NODE_ENV is `test`, and that is the only line it can print |
| Js.JsonCloneIdempotent | config/libs/logger.ts:81 | The `JSON.parse(JSON.stringify(...))` copy of a copy is the copy itself |
| Js.HasAfterJsonClone | config/libs/logger.ts:81-88 | After the JSON copy, `_.has` finds exactly the paths whose every step held something other than `undefined` |

## Left out

- Lodash `_.merge` (config/config.ts:144, 153, 161) is an arbitrary function parameter. It merges arrays index-wise and mutates its first argument, and none of that is modelled or assumed.
- `glob.sync` and `getGlobbedPaths` (`config/utils/common`) are inputs. `config/utils/common` is not part of this model, so ordering and deduplication of the expanded paths are not claimed.
- `require` is a loader from a `Layer` to a value, `None` standing for a throwing `require`. `fs.existsSync(path.resolve(p))` is one predicate on the configured string.
- The `Config` and logger singletons (`getInstance`, `config()`, the constructor guard) are module-initialisation plumbing with no decisions in them.
- `process.env.NODE_ENV = 'development'` is not a write. The validated name is returned and passed to the later stages.
- Console output is recorded as one `Diag` per message. Blank lines, colour resets and message wording are not modelled.
- Lines printed before a throw are lost: `Throw` carries no diagnostics. For example, the NODE_ENV error line printed before a later `require` fails is not recorded.
- The "unable to find logging file configuration" line of `getLogOptions` (config/libs/logger.ts:89) is not in its result. It is implied by the `None` result, and `setupFileLogger`'s result records it as `NoFileLoggerConfig`.
- Winston logger construction, the console transport and the `logger.stream` object (config/libs/logger.ts:14-35) are not modelled. `logger.add` and `logger.remove` are booleans in `Setup` and are assumed not to throw.
- `getMorganOptions` (config/libs/logger.ts:118-124) only returns the winston stream object.
- `config/libs/express.ts`, `client/app/systemjs.config.ts` and the gulp tasks are middleware registration, loader data and build-plugin wrappers.
- Numbers are integers. NaN, infinities, fractions and the exponent form of `String()` for large numbers are not modelled.
- Js.Prop: built-in properties of primitives and arrays (such as `length`) read as `undefined`. None of the keys the code reads is one of them.
- Js.Stringable: configuration values hold no functions, so an own `toString` setting is never callable and always makes the conversion throw. A configuration that installs a callable `toString` or `valueOf` cannot be written in the model.
- Js.Has: lodash's shortcut that checks a whole dotted path as one literal key, when the object has such a key, is not modelled.
- Js.JsonClone: at the top level `JSON.parse(undefined)` throws, and `JsonClone` returns `undefined` unchanged there. `Logger.GetLogOptions` tests for an `undefined` global configuration itself and throws.
- Config.InitGlobalConfigFiles: an array-valued configuration is treated as a non-object (a throw). JavaScript would attach the properties to the array, but the merged configuration is always a plain object.

=== FILE: config.dfy ===
/**
  The start-up configuration pipeline of `Config.initGlobalConfig`: the
  NODE_ENV fallback, the asset and configuration layers, the local override
  gate, the `files` section, the secure-mode downgrade and the production
  session-secret check.

  Everything the loader reads from outside (NODE_ENV, glob results, file
  existence, `require`, lodash's `_.merge`) is a parameter collected in
  `Host`; console output is a list of `Diag` values.
 */
module Config {

  import opened Js
  import opened Diagnostics

  const Development := "development"
  const Production := "production"

  /** The session secret shipped with the boilerplate. */
  const PlaceholderSecret := "BurgerStack"

  /* ---------------------------------------------------------------------- */
  /* NODE_ENV                                                                */
  /* ---------------------------------------------------------------------- */

  /** `if (process.env.NODE_ENV)`: set and not empty. */
  predicate EnvDefined(nodeEnv: Option<string>) {
    nodeEnv.Some? && nodeEnv.value != ""
  }

  /** NODE_ENV after `validateEnvironmentVariable`, and the error line it printed. */
  datatype EnvCheck = EnvCheck(nodeEnv: Option<string>, diag: Option<Diag>)

  /** `validateEnvironmentVariable`. `envFiles` is what the glob
      `./config/env/<NODE_ENV>.+(j|t)s` matched. */
  function ValidateEnvironmentVariable(nodeEnv: Option<string>, envFiles: seq<string>): (r: EnvCheck)
    // no match: fall back to development; a match: keep NODE_ENV as it is
    ensures |envFiles| == 0 ==> r.nodeEnv == Some(Development)
    ensures |envFiles| > 0 ==> r.nodeEnv == nodeEnv
    // an error line is printed exactly when the fallback happens ...
    ensures r.diag.Some? <==> |envFiles| == 0
    // ... naming the requested environment when there was one
    ensures r.diag == Some(NodeEnvNotDefined) <==> |envFiles| == 0 && !EnvDefined(nodeEnv)
    ensures |envFiles| == 0 && EnvDefined(nodeEnv) ==> r.diag == Some(NoConfigFileFor(nodeEnv.value))
    ensures r.diag.Some? && r.diag.value.NoConfigFileFor? ==> EnvDefined(nodeEnv) && r.diag.value.env == nodeEnv.value
    // the result is a usable name unless an unset NODE_ENV itself matched a file
    ensures !EnvDefined(r.nodeEnv) ==> |envFiles| > 0 && !EnvDefined(nodeEnv)
  {
    if |envFiles| == 0 then
      var diag := if EnvDefined(nodeEnv) then NoConfigFileFor(nodeEnv.value) else NodeEnvNotDefined;
      EnvCheck(Some(Development), Some(diag))
    else
      EnvCheck(nodeEnv, None)
  }

  /** Validation settles: when `envGlob` gives the matches of
      `./config/env/<name>.+(j|t)s` for each name and a `development` file
      exists, validating the name chosen by a first validation, against its
      own matches, keeps it and prints nothing. */
  lemma EnvironmentValidationSettles(nodeEnv: Option<string>, envGlob: Option<string> -> seq<string>)
    requires |envGlob(Some(Development))| > 0
    ensures var r := ValidateEnvironmentVariable(nodeEnv, envGlob(nodeEnv));
            ValidateEnvironmentVariable(r.nodeEnv, envGlob(r.nodeEnv)) == EnvCheck(r.nodeEnv, None)
  {
    var r := ValidateEnvironmentVariable(nodeEnv, envGlob(nodeEnv));
    if |envGlob(nodeEnv)| == 0 {
      assert r.nodeEnv == Some(Development);
    } else {
      assert r.nodeEnv == nodeEnv;
    }
  }

  /* ---------------------------------------------------------------------- */
  /* Secure mode                                                             */
  /* ---------------------------------------------------------------------- */

  /** `config.secure.ssl === true` */
  predicate SslOn(config: Value) {
    Prop(Prop(config, "secure"), "ssl") == Bool(true)
  }

  /** Both TLS files are configured as strings and exist on disk. */
  predicate SslMaterialPresent(config: Value, fileExists: string -> bool) {
    var secure := Prop(config, "secure");
    && Prop(secure, "privateKey").Str? && fileExists(Prop(secure, "privateKey").s)
    && Prop(secure, "certificate").Str? && fileExists(Prop(secure, "certificate").s)
  }

  /** `b` is `a`, or `a` with only `secure.ssl` given another value. */
  predicate OnlySslChanged(a: Value, b: Value) {
    || a == b
    || (&& a.Obj? && b.Obj?
        && a.fields.Keys == b.fields.Keys
        && (forall k :: k in a.fields && k != "secure" ==> b.fields[k] == a.fields[k])
        && "secure" in a.fields && a.fields["secure"].Obj? && b.fields["secure"].Obj?
        && a.fields["secure"].fields.Keys == b.fields["secure"].fields.Keys
        && (forall k :: k in a.fields["secure"].fields && k != "ssl" ==>
              b.fields["secure"].fields[k] == a.fields["secure"].fields[k]))
  }

  /** Result of `validateSecureMode` and the configuration it leaves behind. */
  datatype SecureCheck = SecureCheck(ok: bool, config: Value, diag: Option<Diag>)

  /** `validateSecureMode`. `fileExists` is `fs.existsSync` after `path.resolve`;
      `path.resolve` throws when a file setting is not a string. */
  function ValidateSecureMode(config: Value, fileExists: string -> bool): (r: Completion<SecureCheck>)
    requires !Nullish(config)
    // only a requested secure mode with a non-string file setting throws
    ensures r.Throw? <==>
      SslOn(config) && !(Prop(Prop(config, "secure"), "privateKey").Str? && Prop(Prop(config, "secure"), "certificate").Str?)
    // secure mode stays on exactly when it was requested and both files exist
    ensures r.Normal? ==> (SslOn(r.value.config) <==> SslOn(config) && SslMaterialPresent(config, fileExists))
    ensures r.Normal? && SslOn(r.value.config) ==> SslMaterialPresent(r.value.config, fileExists)
    // `false` means a downgrade happened; it and only it changes the configuration and prints
    ensures r.Normal? ==> (!r.value.ok <==> SslOn(config) && !SslMaterialPresent(config, fileExists))
    ensures r.Normal? ==> (r.value.ok <==> r.value.config == config)
    ensures r.Normal? ==> (r.value.diag.Some? <==> !r.value.ok)
    ensures r.Normal? && r.value.diag.Some? ==> r.value.diag.value == MissingSslMaterial
    ensures r.Normal? && !r.value.ok ==> Prop(Prop(r.value.config, "secure"), "ssl") == Bool(false)
    // nothing but `secure.ssl` is touched
    ensures r.Normal? ==> OnlySslChanged(config, r.value.config)
  {
    if !Truthy(Prop(config, "secure")) || Prop(Prop(config, "secure"), "ssl") != Bool(true) then
      Normal(SecureCheck(true, config, None))
    else
      var secure := Prop(config, "secure");
      var keyPath := Prop(secure, "privateKey");
      var certPath := Prop(secure, "certificate");
      if !keyPath.Str? || !certPath.Str? then
        Throw
      else if !fileExists(keyPath.s) || !fileExists(certPath.s) then
        var downgraded := Obj(config.fields["secure" := Obj(secure.fields["ssl" := Bool(false)])]);
        Normal(SecureCheck(false, downgraded, Some(MissingSslMaterial)))
      else
        Normal(SecureCheck(true, config, None))
  }

  /** Validating the validated configuration again succeeds and changes nothing. */
  lemma SecureModeIdempotent(config: Value, fileExists: string -> bool)
    requires !Nullish(config)
    requires ValidateSecureMode(config, fileExists).Normal?
    ensures var c := ValidateSecureMode(config, fileExists).value.config;
            !Nullish(c) && ValidateSecureMode(c, fileExists) == Normal(SecureCheck(true, c, None))
  {
  }

  /* ---------------------------------------------------------------------- */
  /* Session secret                                                          */
  /* ---------------------------------------------------------------------- */

  /** Result of `validateSessionSecret`; the configuration is only read. */
  datatype SecretCheck = SecretCheck(ok: bool, diag: Option<Diag>)

  /** `validateSessionSecret`. It reads the configuration only in production. */
  function ValidateSessionSecret(config: Value, testing: bool, nodeEnv: Option<string>): (r: SecretCheck)
    requires nodeEnv == Some(Production) ==> !Nullish(config)
    ensures !r.ok <==> nodeEnv == Some(Production) && Prop(config, "sessionSecret") == Str(PlaceholderSecret)
    // `testing` silences the warning and does nothing else
    ensures r.diag.Some? <==> !r.ok && !testing
    ensures r.diag.Some? ==> r.diag.value == DefaultSessionSecret
  {
    if nodeEnv != Some(Production) then
      SecretCheck(true, None)
    else if Prop(config, "sessionSecret") == Str(PlaceholderSecret) then
      SecretCheck(false, if !testing then Some(DefaultSessionSecret) else None)
    else
      SecretCheck(true, None)
  }

  /* ---------------------------------------------------------------------- */
  /* The `files` section                                                     */
  /* ---------------------------------------------------------------------- */

  /** Each key of `files.server` and the `assets.server` pattern it expands. */
  const ServerFileSources: map<string, string> :=
    map["mdmodels" := "mongodbModels", "pgmodels" := "postgresModels", "routes" := "routes",
        "configs" := "config", "sockets" := "sockets", "policies" := "policies"]

  /** A list of paths returned by `getGlobbedPaths`, as a JavaScript array. */
  function Paths(ss: seq<string>): (r: Value)
    ensures r.Arr? && |r.elems| == |ss|
    ensures forall i :: 0 <= i < |ss| ==> r.elems[i] == Str(ss[i])
  {
    Arr(seq(|ss|, i requires 0 <= i < |ss| => Str(ss[i])))
  }

  /** The `assets` and `files` sections built from `assets`, as the rest of
      the application reads them. `globbed` is `getGlobbedPaths(pattern, [])`. */
  predicate FilesShaped(config: Value, assets: Value, globbed: Value -> seq<string>) {
    var files := Prop(config, "files");
    var server := Prop(files, "server");
    && Prop(config, "assets") == assets
    && files.Obj? && files.fields.Keys == {"client", "server"}
    && Prop(files, "client") == EmptyObject
    && server.Obj? && server.fields.Keys == ServerFileSources.Keys
    && forall k :: k in ServerFileSources ==>
         server.fields[k] == Paths(globbed(Prop(Prop(assets, "server"), ServerFileSources[k])))
  }

  /** `files.server`: each pattern of `assets.server` expanded under its own key. */
  function ServerFiles(server: Value, globbed: Value -> seq<string>): (r: map<string, Value>)
    ensures r.Keys == ServerFileSources.Keys
    ensures forall k :: k in ServerFileSources ==> r[k] == Paths(globbed(Prop(server, ServerFileSources[k])))
  {
    map[
      "mdmodels" := Paths(globbed(Prop(server, "mongodbModels"))),
      "pgmodels" := Paths(globbed(Prop(server, "postgresModels"))),
      "routes" := Paths(globbed(Prop(server, "routes"))),
      "configs" := Paths(globbed(Prop(server, "config"))),
      "sockets" := Paths(globbed(Prop(server, "sockets"))),
      "policies" := Paths(globbed(Prop(server, "policies")))]
  }

  /** `initGlobalConfigFiles`. Writing a property of a non-object throws, and
      so does reading `assets.server.<pattern>` when `assets` or
      `assets.server` is nullish. */
  function InitGlobalConfigFiles(config: Value, assets: Value, globbed: Value -> seq<string>): (r: Completion<Value>)
    ensures r.Throw? <==> !config.Obj? || Nullish(assets) || Nullish(Prop(assets, "server"))
    ensures r.Normal? ==> FilesShaped(r.value, assets, globbed)
    // every other setting is kept
    ensures r.Normal? ==> r.value.Obj? && config.Obj?
    ensures r.Normal? ==> r.value.fields.Keys == config.fields.Keys + {"assets", "files"}
    ensures r.Normal? ==> forall k :: k in config.fields && k != "assets" && k != "files" ==> r.value.fields[k] == config.fields[k]
  {
    if !config.Obj? || Nullish(assets) || Nullish(Prop(assets, "server")) then
      Throw
    else
      var files := Obj(map["client" := EmptyObject, "server" := Obj(ServerFiles(Prop(assets, "server"), globbed))]);
      Normal(Obj(config.fields["assets" := assets]["files" := files]))
  }

  /* ---------------------------------------------------------------------- */
  /* Layers                                                                  */
  /* ---------------------------------------------------------------------- */

  /** The files `initGlobalConfig` loads with `require`. */
  datatype Layer =
    | BaseAssets                    // config/assets/base
    | EnvAssets(env: string)        // config/assets/<NODE_ENV>
    | BaseConfig                    // config/env/base
    | EnvConfig(env: string)        // config/env/<NODE_ENV>
    | LocalOverride(path: string)   // the single config/env/local-<NODE_ENV>.(j|t)s

  /** `layer || {}` */
  function OrEmpty(v: Value): (r: Value)
    ensures Truthy(r)
    ensures Truthy(v) ==> r == v
    ensures !Truthy(v) ==> r == EmptyObject
  {
    if Truthy(v) then v else EmptyObject
  }

  /** What start-up reads from its surroundings. */
  datatype Host = Host(
    nodeEnv: Option<string>,                // process.env.NODE_ENV
    envFiles: seq<string>,                  // glob.sync('./config/env/<NODE_ENV>.+(j|t)s')
    localFiles: string -> seq<string>,      // getGlobbedPaths('config/env/local-<env>.+(j|t)s', [])
    fileExists: string -> bool,             // fs.existsSync(path.resolve(p))
    load: Layer -> Option<Value>,           // require(layer); None when require throws
    globbed: Value -> seq<string>,          // getGlobbedPaths(pattern, [])
    merge: (Value, Value) -> Value)         // _.merge(target, source)

  /** The local override is merged only when the glob matched exactly one
      file and that file exists. */
  predicate LocalOverrideApplies(localFiles: seq<string>, fileExists: string -> bool) {
    |localFiles| == 1 && fileExists(localFiles[0])
  }

  /** The local-override step of `initGlobalConfig`. */
  function ApplyLocalOverride(config: Value, localFiles: seq<string>, fileExists: string -> bool,
                              load: Layer -> Option<Value>, merge: (Value, Value) -> Value): (r: Completion<Value>)
    // zero matches, several matches or a missing file: the configuration is left as it was
    ensures !LocalOverrideApplies(localFiles, fileExists) ==> r == Normal(config)
    // otherwise the override is merged over it, or its `require` throws
    ensures LocalOverrideApplies(localFiles, fileExists) ==>
      (r.Throw? <==> load(LocalOverride(localFiles[0])).None?)
    ensures LocalOverrideApplies(localFiles, fileExists) && r.Normal? ==>
      r.value == merge(config, OrEmpty(load(LocalOverride(localFiles[0])).value))
  {
    if |localFiles| == 1 then
      var localEnv := localFiles[|localFiles| - 1];  // localEnvFiles.pop()
      if fileExists(localEnv) then
        match load(LocalOverride(localEnv))
        case None => Throw
        case Some(v) => Normal(merge(config, OrEmpty(v)))
      else
        Normal(config)
    else
      Normal(config)
  }

  /* ---------------------------------------------------------------------- */
  /* initGlobalConfig                                                        */
  /* ---------------------------------------------------------------------- */

  /** The configuration `Config.config()` hands out, the NODE_ENV it was
      resolved for, and the lines printed on the way. */
  datatype Resolved = Resolved(nodeEnv: string, config: Value, diags: seq<Diag>)

  /** The two merged layers before the local override: the asset manifest and
      the configuration values. */
  datatype Layers = Layers(assets: Value, config: Value)

  /** Loads and merges the base and environment layers for `env`; any failing
      `require` throws. */
  function MergeLayers(h: Host, env: string): Completion<Layers>
  {
    var baseAssets := h.load(BaseAssets);
    var environmentAssets := h.load(EnvAssets(env));
    if baseAssets.None? || environmentAssets.None? then Throw
    else
      var assets := h.merge(baseAssets.value, OrEmpty(environmentAssets.value));
      var baseConfig := h.load(BaseConfig);
      var environmentConfig := h.load(EnvConfig(env));
      if baseConfig.None? || environmentConfig.None? then Throw
      else Normal(Layers(assets, h.merge(baseConfig.value, OrEmpty(environmentConfig.value))))
  }

  /** The configuration resolved for one environment name and the lines
      printed after the NODE_ENV check. */
  datatype Settled = Settled(config: Value, diags: seq<Diag>)

  /** The merged asset manifest and the configuration after the local
      override, before `files` is added: the last layer a settings file can
      change. */
  function Overridden(h: Host, env: string): Completion<Layers>
  {
    match MergeLayers(h, env)
    case Throw => Throw
    case Normal(layers) =>
      match ApplyLocalOverride(layers.config, h.localFiles(env), h.fileExists, h.load, h.merge)
      case Throw => Throw
      case Normal(config) => Normal(layers.(config := config))
  }

  /** Every `require` of the layers for `env` succeeds: the four base and
      environment layers, and the local override whenever it applies. */
  predicate LayersLoad(h: Host, env: string) {
    && h.load(BaseAssets).Some? && h.load(EnvAssets(env)).Some?
    && h.load(BaseConfig).Some? && h.load(EnvConfig(env)).Some?
    && (LocalOverrideApplies(h.localFiles(env), h.fileExists) ==> h.load(LocalOverride(h.localFiles(env)[0])).Some?)
  }

  /** Merged layers the later stages accept without throwing: the
      configuration is an object, `assets.server` is there, and a requested
      secure mode names its TLS files as strings. */
  predicate Startable(layers: Layers) {
    var secure := Prop(layers.config, "secure");
    && layers.config.Obj?
    && !Nullish(layers.assets) && !Nullish(Prop(layers.assets, "server"))
    && (SslOn(layers.config) ==> Prop(secure, "privateKey").Str? && Prop(secure, "certificate").Str?)
  }

  /** The stages of `initGlobalConfig` that follow the NODE_ENV check, for
      the environment name it settled on. */
  function ResolveFor(h: Host, env: string): (r: Completion<Settled>)
    // after the NODE_ENV check only the secure-mode and session-secret lines can appear
    ensures r.Normal? ==> forall d :: d in r.value.diags ==> d == MissingSslMaterial || d == DefaultSessionSecret
    ensures r.Normal? ==> |r.value.diags| <= 2
    ensures r.Normal? ==> multiset(r.value.diags)[MissingSslMaterial] <= 1 && multiset(r.value.diags)[DefaultSessionSecret] <= 1
    // a base layer that cannot be loaded aborts start-up
    ensures h.load(BaseAssets).None? || h.load(BaseConfig).None? ==> r.Throw?
  {
    match Overridden(h, env)
    case Throw => Throw
    case Normal(layers) =>
      match InitGlobalConfigFiles(layers.config, layers.assets, h.globbed)
      case Throw => Throw
      case Normal(withFiles) => CheckSettings(withFiles, h.fileExists, env)
  }

  /** The secure-mode and session-secret checks that close start-up. */
  function CheckSettings(withFiles: Value, fileExists: string -> bool, env: string): (r: Completion<Settled>)
    requires !Nullish(withFiles)
    // only a requested secure mode with a non-string file setting throws
    ensures r.Throw? <==>
      SslOn(withFiles) && !(Prop(Prop(withFiles, "secure"), "privateKey").Str? && Prop(Prop(withFiles, "secure"), "certificate").Str?)
    ensures r.Normal? ==> forall d :: d in r.value.diags ==> d == MissingSslMaterial || d == DefaultSessionSecret
    ensures r.Normal? ==> |r.value.diags| <= 2
    // one line at most of each kind
    ensures r.Normal? ==> multiset(r.value.diags)[MissingSslMaterial] <= 1 && multiset(r.value.diags)[DefaultSessionSecret] <= 1
    // the TLS line is printed exactly when secure mode was requested without both files
    ensures r.Normal? ==> (MissingSslMaterial in r.value.diags <==> SslOn(withFiles) && !SslMaterialPresent(withFiles, fileExists))
    // secure mode survives exactly when both files exist
    ensures r.Normal? ==> (SslOn(r.value.config) <==> SslOn(withFiles) && SslMaterialPresent(withFiles, fileExists))
    ensures r.Normal? && SslOn(r.value.config) ==> SslMaterialPresent(r.value.config, fileExists)
    ensures r.Normal? ==> OnlySslChanged(withFiles, r.value.config)
    // without a downgrade the configuration is left exactly as it was; a downgrade sets `ssl` to false
    ensures r.Normal? ==> (MissingSslMaterial !in r.value.diags ==> r.value.config == withFiles)
    ensures r.Normal? ==>
      (MissingSslMaterial in r.value.diags ==> Prop(Prop(r.value.config, "secure"), "ssl") == Bool(false))
    // the secret warning is printed exactly for production with the placeholder
    ensures r.Normal? ==>
      (DefaultSessionSecret in r.value.diags <==> env == Production && Prop(r.value.config, "sessionSecret") == Str(PlaceholderSecret))
  {
    match ValidateSecureMode(withFiles, fileExists)
    case Throw => Throw
    case Normal(secure) =>
      var secret := ValidateSessionSecret(secure.config, false, Some(env));
      Normal(Settled(secure.config, Lines(secure.diag) + Lines(secret.diag)))
  }

  /** `initGlobalConfig`, run once when the `Config` singleton is built. */
  function InitGlobalConfig(h: Host): (r: Completion<Resolved>)
    // an unset NODE_ENV that matched a file reaches path.join as undefined and throws
    ensures h.nodeEnv.None? && |h.envFiles| > 0 ==> r.Throw?
    // a missing base layer aborts start-up
    ensures h.load(BaseAssets).None? || h.load(BaseConfig).None? ==> r.Throw?
    // the environment start-up settles on
    ensures r.Normal? ==> r.value.nodeEnv == (if |h.envFiles| == 0 then Development else h.nodeEnv.value)
    // at most one line each for NODE_ENV, secure mode and the session secret
    ensures r.Normal? ==> |r.value.diags| <= 3
  {
    var envCheck := ValidateEnvironmentVariable(h.nodeEnv, h.envFiles);
    match envCheck.nodeEnv
    // path.join(process.cwd(), 'config/assets/', undefined) throws
    case None => Throw
    case Some(env) =>
      match ResolveFor(h, env)
      case Throw => Throw
      case Normal(settled) => Normal(Resolved(env, settled.config, Lines(envCheck.diag) + settled.diags))
  }

  /** A successful start-up is the NODE_ENV line, if any, followed by what
      the later stages resolved for the settled name. */
  lemma InitGlobalConfigStages(h: Host)
    requires InitGlobalConfig(h).Normal?
    ensures var envCheck := ValidateEnvironmentVariable(h.nodeEnv, h.envFiles);
      && envCheck.nodeEnv.Some?
      && ResolveFor(h, envCheck.nodeEnv.value).Normal?
      && InitGlobalConfig(h).value.nodeEnv == envCheck.nodeEnv.value
      && InitGlobalConfig(h).value.config == ResolveFor(h, envCheck.nodeEnv.value).value.config
      && InitGlobalConfig(h).value.diags == Lines(envCheck.diag) + ResolveFor(h, envCheck.nodeEnv.value).value.diags
  {
  }

  /** The later stages, for one name: the layers, then `files`, then the checks. */
  lemma ResolveForStages(h: Host, env: string)
    requires ResolveFor(h, env).Normal?
    ensures Overridden(h, env).Normal?
    ensures var layers := Overridden(h, env).value;
      && InitGlobalConfigFiles(layers.config, layers.assets, h.globbed).Normal?
      && ResolveFor(h, env) == CheckSettings(InitGlobalConfigFiles(layers.config, layers.assets, h.globbed).value, h.fileExists, env)
  {
  }

  /** The layers merge without a throw exactly when every `require` they
      need succeeds. */
  lemma OverriddenSucceeds(h: Host, env: string)
    ensures Overridden(h, env).Normal? <==> LayersLoad(h, env)
  {
  }

  /** Start-up completes exactly when NODE_ENV yields a name and the layers
      for it load and are usable. Neither the session secret nor whether the
      TLS files exist can make it fail: a missing file only switches secure
      mode off. */
  lemma InitGlobalConfigSucceeds(h: Host)
    ensures var name := ValidateEnvironmentVariable(h.nodeEnv, h.envFiles).nodeEnv;
      InitGlobalConfig(h).Normal? <==>
        name.Some? && LayersLoad(h, name.value) && Startable(Overridden(h, name.value).value)
  {
    var name := ValidateEnvironmentVariable(h.nodeEnv, h.envFiles).nodeEnv;
    if name.Some? {
      ResolveForSucceeds(h, name.value);
    }
  }

  /** The later stages complete exactly when the layers load and are usable. */
  lemma ResolveForSucceeds(h: Host, env: string)
    ensures ResolveFor(h, env).Normal? <==> LayersLoad(h, env) && Startable(Overridden(h, env).value)
  {
    OverriddenSucceeds(h, env);
    if Overridden(h, env).Normal? {
      var layers := Overridden(h, env).value;
      var files := InitGlobalConfigFiles(layers.config, layers.assets, h.globbed);
      if files.Normal? {
        assert Prop(files.value, "secure") == Prop(layers.config, "secure");
      }
    }
  }

  /** NODE_ENV resolution as the application sees it: `development` when no
      configuration file matched, the requested name otherwise; the first
      line printed says which fallback happened. */
  lemma ResolvedEnvironment(h: Host)
    requires InitGlobalConfig(h).Normal?
    ensures var r := InitGlobalConfig(h).value;
      && (|h.envFiles| == 0 ==>
            (&& r.nodeEnv == Development && |r.diags| > 0
             && r.diags[0] == (if EnvDefined(h.nodeEnv) then NoConfigFileFor(h.nodeEnv.value) else NodeEnvNotDefined)))
      && (|h.envFiles| > 0 ==>
            (&& h.nodeEnv == Some(r.nodeEnv) && NodeEnvNotDefined !in r.diags
             && forall d :: d in r.diags ==> !d.NoConfigFileFor?))
  {
    InitGlobalConfigStages(h);
    var envCheck := ValidateEnvironmentVariable(h.nodeEnv, h.envFiles);
    EnvironmentLineLeads(h.nodeEnv, h.envFiles, ResolveFor(h, envCheck.nodeEnv.value).value.diags);
  }

  /** The NODE_ENV line, when there is one, comes first; the later stages
      add no environment line of their own. */
  lemma EnvironmentLineLeads(nodeEnv: Option<string>, envFiles: seq<string>, later: seq<Diag>)
    requires forall d :: d in later ==> d == MissingSslMaterial || d == DefaultSessionSecret
    ensures var diags := Lines(ValidateEnvironmentVariable(nodeEnv, envFiles).diag) + later;
      && (|envFiles| == 0 ==>
            |diags| > 0 && diags[0] == (if EnvDefined(nodeEnv) then NoConfigFileFor(nodeEnv.value) else NodeEnvNotDefined))
      && (|envFiles| > 0 ==> NodeEnvNotDefined !in diags && forall d :: d in diags ==> !d.NoConfigFileFor?)
  {
    var envCheck := ValidateEnvironmentVariable(nodeEnv, envFiles);
    if |envFiles| > 0 {
      assert Lines(envCheck.diag) + later == later;
    }
  }

  /** Start-up ends with secure mode on only when both TLS files exist. */
  lemma ResolvedSslNeedsMaterial(h: Host)
    requires InitGlobalConfig(h).Normal?
    ensures SslOn(InitGlobalConfig(h).value.config) ==> SslMaterialPresent(InitGlobalConfig(h).value.config, h.fileExists)
    ensures MissingSslMaterial in InitGlobalConfig(h).value.diags ==> !SslOn(InitGlobalConfig(h).value.config)
  {
    InitGlobalConfigStages(h);
    var env := ValidateEnvironmentVariable(h.nodeEnv, h.envFiles).nodeEnv.value;
    ResolveForStages(h, env);
  }

  /** What secure mode ends as, against the configuration `c` that asked for
      it: the TLS line is printed exactly when secure mode was requested and
      a file is missing, secure mode stays on exactly when both exist, the
      line comes with `ssl` set to false, and without it the `secure` section
      is the configured one. */
  predicate SslOutcome(config: Value, diags: seq<Diag>, c: Value, fileExists: string -> bool) {
    && (MissingSslMaterial in diags <==> SslOn(c) && !SslMaterialPresent(c, fileExists))
    && (SslOn(config) <==> SslOn(c) && SslMaterialPresent(c, fileExists))
    && (MissingSslMaterial !in diags ==> Prop(config, "secure") == Prop(c, "secure"))
    && (MissingSslMaterial in diags ==> Prop(Prop(config, "secure"), "ssl") == Bool(false))
  }

  /** The NODE_ENV line in front does not change the TLS outcome. */
  lemma SslOutcomeAfterEnvLine(config: Value, envDiag: Option<Diag>, diags: seq<Diag>, c: Value, fileExists: string -> bool)
    requires envDiag != Some(MissingSslMaterial)
    requires SslOutcome(config, diags, c, fileExists)
    ensures SslOutcome(config, Lines(envDiag) + diags, c, fileExists)
  {
    assert MissingSslMaterial !in Lines(envDiag);
  }

  /** The TLS warning of a successful start-up is printed exactly when the
      configuration asked for secure mode and a TLS file is missing, and
      secure mode stays on exactly when both exist. */
  lemma ResolvedSslWarning(h: Host)
    requires InitGlobalConfig(h).Normal?
    ensures var r := InitGlobalConfig(h).value;
      && Overridden(h, r.nodeEnv).Normal?
      && SslOutcome(r.config, r.diags, Overridden(h, r.nodeEnv).value.config, h.fileExists)
  {
    InitGlobalConfigStages(h);
    var envCheck := ValidateEnvironmentVariable(h.nodeEnv, h.envFiles);
    var env := envCheck.nodeEnv.value;
    ResolveForSsl(h, env);
    var settled := ResolveFor(h, env).value;
    SslOutcomeAfterEnvLine(settled.config, envCheck.diag, settled.diags, Overridden(h, env).value.config, h.fileExists);
  }

  /** The TLS outcome of the later stages, in terms of the overridden layers. */
  lemma ResolveForSsl(h: Host, env: string)
    requires ResolveFor(h, env).Normal?
    ensures Overridden(h, env).Normal?
    ensures SslOutcome(ResolveFor(h, env).value.config, ResolveFor(h, env).value.diags, Overridden(h, env).value.config, h.fileExists)
  {
    ResolveForStages(h, env);
    var layers := Overridden(h, env).value;
    var withFiles := InitGlobalConfigFiles(layers.config, layers.assets, h.globbed).value;
    assert Prop(withFiles, "secure") == Prop(layers.config, "secure");
  }

  /** The resolved configuration carries the `assets` and `files` sections
      built from the merged asset manifest; the secure-mode check leaves them
      alone. */
  lemma ResolvedFilesShape(h: Host)
    requires InitGlobalConfig(h).Normal?
    ensures var env := InitGlobalConfig(h).value.nodeEnv;
      && Overridden(h, env).Normal?
      && FilesShaped(InitGlobalConfig(h).value.config, Overridden(h, env).value.assets, h.globbed)
  {
    InitGlobalConfigStages(h);
    var env := ValidateEnvironmentVariable(h.nodeEnv, h.envFiles).nodeEnv.value;
    ResolveForStages(h, env);
    var layers := Overridden(h, env).value;
    var withFiles := InitGlobalConfigFiles(layers.config, layers.assets, h.globbed).value;
    var final := InitGlobalConfig(h).value.config;
    assert OnlySslChanged(withFiles, final);
    assert Prop(final, "files") == Prop(withFiles, "files");
    assert Prop(final, "assets") == Prop(withFiles, "assets");
  }

  /** Every setting other than `secure`, `assets` and `files` is the one
      the layers and the local override produced; in particular the session
      secret is never rewritten, even when it is the placeholder. */
  lemma ResolvedSettingsKept(h: Host, key: string)
    requires InitGlobalConfig(h).Normal?
    requires key != "secure" && key != "assets" && key != "files"
    ensures var r := InitGlobalConfig(h).value;
      && Overridden(h, r.nodeEnv).Normal?
      && Prop(r.config, key) == Prop(Overridden(h, r.nodeEnv).value.config, key)
  {
    InitGlobalConfigStages(h);
    ResolveForKeeps(h, ValidateEnvironmentVariable(h.nodeEnv, h.envFiles).nodeEnv.value, key);
  }

  /** The later stages keep every setting other than `secure`, `assets` and
      `files` as the overridden layers hold it. */
  lemma ResolveForKeeps(h: Host, env: string, key: string)
    requires ResolveFor(h, env).Normal?
    requires key != "secure" && key != "assets" && key != "files"
    ensures Overridden(h, env).Normal?
    ensures Prop(ResolveFor(h, env).value.config, key) == Prop(Overridden(h, env).value.config, key)
  {
    ResolveForStages(h, env);
    var layers := Overridden(h, env).value;
    var withFiles := InitGlobalConfigFiles(layers.config, layers.assets, h.globbed).value;
    var final := ResolveFor(h, env).value.config;
    assert OnlySslChanged(withFiles, final);
    assert Prop(withFiles, key) == Prop(layers.config, key);
  }


  /** The placeholder-secret warning appears exactly when production runs
      with the placeholder secret; it never changes the outcome otherwise. */
  lemma ResolvedSecretWarning(h: Host)
    requires InitGlobalConfig(h).Normal?
    ensures var r := InitGlobalConfig(h).value;
      DefaultSessionSecret in r.diags <==>
        r.nodeEnv == Production && Prop(r.config, "sessionSecret") == Str(PlaceholderSecret)
  {
    InitGlobalConfigStages(h);
    var envCheck := ValidateEnvironmentVariable(h.nodeEnv, h.envFiles);
    ResolveForStages(h, envCheck.nodeEnv.value);
    assert DefaultSessionSecret !in Lines(envCheck.diag);
  }

  /** When the local override does not apply, start-up resolves exactly as if
      no local-override file had been looked for. */
  lemma LocalOverrideSkippedChangesNothing(h: Host, env: string)
    requires ValidateEnvironmentVariable(h.nodeEnv, h.envFiles).nodeEnv == Some(env)
    requires !LocalOverrideApplies(h.localFiles(env), h.fileExists)
    ensures InitGlobalConfig(h) == InitGlobalConfig(h.(localFiles := e => []))
  {
    var bare := h.(localFiles := e => []);
    assert Overridden(h, env) == Overridden(bare, env);
    assert ResolveFor(h, env) == ResolveFor(bare, env);
  }

  /** A production layer with the placeholder secret and secure mode asked
      for, as every `require` returns it in `DegradedHost`. */
  const DegradedLayer: Value :=
    Obj(map[
      "server" := EmptyObject,
      "sessionSecret" := Str(PlaceholderSecret),
      "secure" := Obj(map["ssl" := Bool(true), "privateKey" := Str("key.pem"), "certificate" := Str("cert.pem")])])

  /** Production start-up with no TLS file on disk and no local override. */
  const DegradedHost: Host :=
    Host(Some(Production), ["config/env/production.js"], e => [], p => false,
         l => Some(DegradedLayer), p => [], (a, b) => a)

  /** The layers of `DegradedHost` load, and merging keeps the base layer. */
  lemma DegradedLayersLoad()
    ensures LayersLoad(DegradedHost, Production)
    ensures Overridden(DegradedHost, Production) == Normal(Layers(DegradedLayer, DegradedLayer))
    ensures Startable(Layers(DegradedLayer, DegradedLayer))
  {
    var h := DegradedHost;
    assert h.localFiles(Production) == [];
    assert MergeLayers(h, Production) == Normal(Layers(DegradedLayer, DegradedLayer));
    var secure := Prop(DegradedLayer, "secure");
    assert Prop(secure, "privateKey") == Str("key.pem");
    assert Prop(secure, "certificate") == Str("cert.pem");
  }

  /** Start-up degrades instead of failing: in production, with layers that
      load and are usable, a requested secure mode whose files are missing
      and the placeholder secret, start-up completes with secure mode off and
      both warnings printed. */
  lemma StartUpDegrades(h: Host)
    requires h.nodeEnv == Some(Production) && |h.envFiles| > 0
    requires LayersLoad(h, Production) && Startable(Overridden(h, Production).value)
    requires var c := Overridden(h, Production).value.config;
      SslOn(c) && !SslMaterialPresent(c, h.fileExists) && Prop(c, "sessionSecret") == Str(PlaceholderSecret)
    ensures InitGlobalConfig(h).Normal?
    ensures var r := InitGlobalConfig(h).value;
      && r.nodeEnv == Production
      && !SslOn(r.config)
      && MissingSslMaterial in r.diags && DefaultSessionSecret in r.diags
  {
    assert ValidateEnvironmentVariable(h.nodeEnv, h.envFiles).nodeEnv == Some(Production);
    InitGlobalConfigSucceeds(h);
    ResolvedSslWarning(h);
    ResolvedSettingsKept(h, "sessionSecret");
    ResolvedSecretWarning(h);
  }

  /** `DegradedHost` is such a start-up. */
  lemma DegradedHostStartsUp()
    ensures InitGlobalConfig(DegradedHost).Normal?
    ensures MissingSslMaterial in InitGlobalConfig(DegradedHost).value.diags
  {
    DegradedLayersLoad();
    assert !SslMaterialPresent(DegradedLayer, DegradedHost.fileExists);
    StartUpDegrades(DegradedHost);
  }
}

=== FILE: diagnostics.dfy ===
/**
  The console lines the configuration loader and the logger print when they
  fall back to a safer or default setting. Each is recorded as a value
  instead of being written to a stream.
 */
module Diagnostics {

  import opened Js

  datatype Diag =
      /** NODE_ENV names an environment for which no configuration file exists;
          `development` is used instead. */
    | NoConfigFileFor(env: string)
      /** NODE_ENV is not set (or empty); `development` is used. */
    | NodeEnvNotDefined
      /** Secure mode was requested but the private key or the certificate
          file is missing; secure mode is switched off. */
    | MissingSslMaterial
      /** Production runs with the placeholder session secret. */
    | DefaultSessionSecret
      /** The configuration has no file-logger directory or file name. */
    | NoFileLoggerConfig
      /** Opening the log file failed; no file transport was added. */
    | FileTransportFailed
      /** The configured log format is not one the logger accepts;
          `combined` is used. */
    | InvalidLogFormat

  /** The optional line of one step, as a list. */
  function Lines(d: Option<Diag>): (r: seq<Diag>)
    ensures |r| <= 1
    ensures |r| == 1 <==> d.Some?
    ensures d.Some? ==> r[0] == d.value
  {
    match d
    case None => []
    case Some(x) => [x]
  }
}

=== FILE: js.dfy ===
/**
  The fragment of JavaScript value semantics that the configuration loader and
  the logger rely on: the shape of a configuration value, truthiness, property
  reads, lodash's `_.has`, `String(v)` and the deep copy made by
  `JSON.parse(JSON.stringify(v))`.

  Numbers are integers here; NaN, infinities and fractions are not modelled.
 */
module Js {

  datatype Option<+T> = None | Some(value: T)

  /** How a JavaScript call completes: it returns a value, or it throws
      (a TypeError, or a failed `require`). */
  datatype Completion<+T> = Normal(value: T) | Throw

  /** A JSON-like JavaScript value, as found in a loaded configuration file. */
  datatype Value =
    | Undefined
    | Null
    | Bool(b: bool)
    | Num(n: int)
    | Str(s: string)
    | Arr(elems: seq<Value>)
    | Obj(fields: map<string, Value>)

  const EmptyObject: Value := Obj(map[])

  /** Reading a property of `null` or `undefined` throws a TypeError. */
  predicate Nullish(v: Value) {
    v.Undefined? || v.Null?
  }

  /** JavaScript's ToBoolean: `undefined`, `null`, `false`, `0` and `""` are falsy. */
  predicate Truthy(v: Value) {
    match v
    case Undefined => false
    case Null => false
    case Bool(b) => b
    case Num(n) => n != 0
    case Str(s) => s != ""
    case Arr(_) => true
    case Obj(_) => true
  }

  /** `v.k` for a `v` that is not nullish. None of the keys read by the
      configuration code is a built-in property of a primitive or an array,
      so only an own field of an object yields something other than
      `undefined`. */
  function Prop(v: Value, k: string): (r: Value)
    ensures r != Undefined ==> v.Obj? && k in v.fields && r == v.fields[k]
    ensures v.Obj? && k in v.fields ==> r == v.fields[k]
  {
    if v.Obj? && k in v.fields then v.fields[k] else Undefined
  }

  /** `v.k1.k2. ... .kn`, reading `undefined` once the path leaves the objects. */
  function At(v: Value, path: seq<string>): Value
    decreases |path|
  {
    if |path| == 0 then v else At(Prop(v, path[0]), path[1..])
  }

  /** lodash `_.has(v, "k1.k2...kn")`: every key on the path is an own
      property of the value reached so far, whatever that property holds
      (`undefined` included). */
  predicate Has(v: Value, path: seq<string>)
    decreases |path|
  {
    && |path| > 0
    && v.Obj?
    && path[0] in v.fields
    && (|path| == 1 || Has(v.fields[path[0]], path[1..]))
  }

  /** Like `Has`, but every property on the path must also hold something
      other than `undefined`. */
  predicate HasDefined(v: Value, path: seq<string>)
    decreases |path|
  {
    && |path| > 0
    && v.Obj?
    && path[0] in v.fields
    && v.fields[path[0]] != Undefined
    && (|path| == 1 || HasDefined(v.fields[path[0]], path[1..]))
  }

  function DigitChar(d: nat): char
    requires d < 10
  {
    "0123456789"[d]
  }

  function NatToString(n: nat): (r: string)
    ensures |r| > 0
  {
    if n < 10 then [DigitChar(n)] else NatToString(n / 10) + [DigitChar(n % 10)]
  }

  /** `String(n)` for an integer-valued number. */
  function IntToString(n: int): (r: string)
    ensures |r| > 0
  {
    if n < 0 then "-" + NatToString(-n) else NatToString(n)
  }

  /** `ss.join(",")` */
  function JoinWithCommas(ss: seq<string>): string
  {
    if |ss| == 0 then ""
    else if |ss| == 1 then ss[0]
    else ss[0] + "," + JoinWithCommas(ss[1..])
  }

  /** Whether converting `v` to a string completes. Configuration values hold
      no functions, so an object with an own `toString` property has nothing
      callable under that name: `v.toString()` throws a TypeError, and so do
      `String(v)` and `v + "/"`, which fall back from `toString` to
      `valueOf`, whose result is the object itself, not a primitive. An array
      converts each element in turn. */
  predicate Stringable(v: Value) {
    match v
    case Obj(f) => "toString" !in f
    case Arr(e) => forall i :: 0 <= i < |e| ==> Stringable(e[i])
    case _ => true
  }

  /** `String(v)`, which is also what `v.toString()` and string
      concatenation `v + "/"` give for a value that converts at all. An
      array joins its elements with commas, writing nothing for `null` and
      `undefined`. */
  function ToString(v: Value): string
    requires Stringable(v)
  {
    match v
    case Undefined => "undefined"
    case Null => "null"
    case Bool(b) => if b then "true" else "false"
    case Num(n) => IntToString(n)
    case Str(s) => s
    case Arr(e) =>
      JoinWithCommas(seq(|e|, i requires 0 <= i < |e| => if Nullish(e[i]) then "" else ToString(e[i])))
    case Obj(_) => "[object Object]"
  }

  /** `JSON.parse(JSON.stringify(v))`: object properties holding `undefined`
      are dropped and `undefined` array elements become `null`. At the top
      level `JSON.parse(undefined)` throws; that case is left to the caller,
      and the value is returned unchanged here. */
  function JsonClone(v: Value): Value
  {
    match v
    case Obj(f) => Obj(map k | k in f && f[k] != Undefined :: JsonClone(f[k]))
    case Arr(e) => Arr(seq(|e|, i requires 0 <= i < |e| => if e[i] == Undefined then Null else JsonClone(e[i])))
    case _ => v
  }

  /** Copying keeps the kind of a value: only `undefined` copies to `undefined`. */
  lemma JsonCloneKeepsKind(v: Value)
    ensures JsonClone(v) == Undefined <==> v == Undefined
    ensures JsonClone(v).Obj? <==> v.Obj?
    ensures JsonClone(v).Arr? <==> v.Arr?
    ensures Nullish(JsonClone(v)) <==> Nullish(v)
  {
  }

  /** A JSON copy holds no `undefined` below its top level. */
  lemma JsonCloneHasNoUndefinedFields(v: Value)
    ensures JsonClone(v).Obj? ==> forall k :: k in JsonClone(v).fields ==> JsonClone(v).fields[k] != Undefined
    ensures JsonClone(v).Arr? ==> forall i :: 0 <= i < |JsonClone(v).elems| ==> JsonClone(v).elems[i] != Undefined
  {
  }

  /** Copying a copy changes nothing: the JSON round trip is idempotent. */
  lemma {:induction false} JsonCloneIdempotent(v: Value)
    ensures JsonClone(JsonClone(v)) == JsonClone(v)
  {
    match v
    case Obj(f) =>
      var c := JsonClone(v);
      forall k | k in f && f[k] != Undefined
        ensures JsonClone(JsonClone(f[k])) == JsonClone(f[k])
      {
        JsonCloneIdempotent(f[k]);
      }
      JsonCloneHasNoUndefinedFields(v);
      assert JsonClone(c).fields == c.fields;
    case Arr(e) =>
      var c := JsonClone(v);
      forall i | 0 <= i < |e| && e[i] != Undefined
        ensures JsonClone(JsonClone(e[i])) == JsonClone(e[i])
      {
        JsonCloneIdempotent(e[i]);
      }
      JsonCloneHasNoUndefinedFields(v);
      assert JsonClone(c).elems == c.elems;
    case _ =>
  }

  /** After the JSON round trip, `_.has` finds exactly the paths whose every
      step held something other than `undefined` before it. */
  lemma {:induction false} HasAfterJsonClone(v: Value, path: seq<string>)
    ensures Has(JsonClone(v), path) <==> HasDefined(v, path)
    decreases |path|
  {
    if |path| > 0 && v.Obj? && path[0] in v.fields && v.fields[path[0]] != Undefined {
      JsonCloneKeepsKind(v.fields[path[0]]);
      if |path| > 1 {
        HasAfterJsonClone(v.fields[path[0]], path[1..]);
      }
    }
  }

  /** A property read after the JSON round trip is the copy of the property
      read before it, unless that property held `undefined`. */
  lemma PropAfterJsonClone(v: Value, k: string)
    requires v.Obj?
    ensures Prop(JsonClone(v), k) == (if Prop(v, k) == Undefined then Undefined else JsonClone(Prop(v, k)))
  {
  }
}

=== FILE: logger.dfy ===
/**
  The option derivation of the application logger: the request-log format
  chosen from the configuration, the options of the file transport, and the
  decision of `setupFileLogger` whether to add that transport.

  `config` is the resolved configuration the logger module reads at load
  time; `nodeEnv` is `process.env.NODE_ENV`. Winston itself and the
  filesystem are outside the model: opening the log file is an input.
 */
module Logger {

  import opened Js
  import opened Diagnostics

  /** The formats the request logger accepts, in the order the source lists them. */
  const ValidFormats: seq<string> := ["combined", "common", "dev", "short", "tiny"]

  const DefaultFormat := "combined"
  const DefaultMaxSize := 10485760
  const DefaultMaxFiles := 2

  /* ---------------------------------------------------------------------- */
  /* getLogFormat                                                            */
  /* ---------------------------------------------------------------------- */

  /** The format `getLogFormat` asks for before it is checked:
      `config.log && config.log.format ? config.log.format.toString() : 'combined'`.
      The conversion throws for a format that cannot be turned into a string. */
  function RequestedFormat(config: Value): (r: Completion<string>)
    // only a truthy format that does not convert throws
    ensures var format := Prop(Prop(config, "log"), "format");
      r.Throw? <==> Truthy(format) && !Stringable(format)
    // a non-empty string format is asked for as written
    ensures var format := Prop(Prop(config, "log"), "format");
      format.Str? && format.s != "" ==> r == Normal(format.s)
    // no `log` section, or a falsy `log.format`, asks for `combined`
    ensures !Truthy(Prop(Prop(config, "log"), "format")) ==> r == Normal(DefaultFormat)
  {
    var log := Prop(config, "log");
    if Truthy(log) && Truthy(Prop(log, "format")) then
      if Stringable(Prop(log, "format")) then Normal(ToString(Prop(log, "format"))) else Throw
    else
      Normal(DefaultFormat)
  }

  /** The chosen format and the warning printed, if any. */
  datatype FormatChoice = FormatChoice(format: string, diag: Option<Diag>)

  /** `getLogFormat` */
  function GetLogFormat(config: Value, nodeEnv: Option<string>): (r: Completion<FormatChoice>)
    requires !Nullish(config)
    // the only throw is the conversion of the requested format
    ensures r.Throw? <==> RequestedFormat(config).Throw?
    // the result is always an accepted format
    ensures r.Normal? ==> r.value.format in ValidFormats
    // an accepted format is passed through unchanged, without a warning
    ensures var q := RequestedFormat(config);
      q.Normal? && q.value in ValidFormats ==> r == Normal(FormatChoice(q.value, None))
    // anything else becomes `combined`, with a warning outside the test environment
    ensures var q := RequestedFormat(config);
      q.Normal? && q.value !in ValidFormats ==> r.Normal? && r.value.format == DefaultFormat
    ensures r.Normal? ==>
      (r.value.diag.Some? <==> RequestedFormat(config).value !in ValidFormats && nodeEnv != Some("test"))
    ensures r.Normal? && r.value.diag.Some? ==> r.value.diag.value == InvalidLogFormat
    // no `log` section, or no `log.format`, means `combined`
    ensures !Truthy(Prop(Prop(config, "log"), "format")) ==> r == Normal(FormatChoice(DefaultFormat, None))
  {
    match RequestedFormat(config)
    case Throw => Throw
    case Normal(format) =>
      if format !in ValidFormats then
        Normal(FormatChoice(DefaultFormat, if nodeEnv != Some("test") then Some(InvalidLogFormat) else None))
      else
        Normal(FormatChoice(format, None))
  }

  /** `config` with `log.format` set to `format`, every other setting kept. */
  function WithFormat(config: Value, format: string): (r: Value)
    requires config.Obj?
    ensures Prop(Prop(r, "log"), "format") == Str(format)
  {
    var log := Prop(config, "log");
    var logFields := if log.Obj? then log.fields else map[];
    Obj(config.fields["log" := Obj(logFields["format" := Str(format)])])
  }

  /** Writing the chosen format back into the configuration and asking again
      gives the same format, with no warning. */
  lemma LogFormatStable(config: Value, nodeEnv: Option<string>, again: Option<string>)
    requires config.Obj?
    requires GetLogFormat(config, nodeEnv).Normal?
    ensures var f := GetLogFormat(config, nodeEnv).value.format;
            GetLogFormat(WithFormat(config, f), again) == Normal(FormatChoice(f, None))
  {
    var f := GetLogFormat(config, nodeEnv).value.format;
    assert Truthy(Str(f));
  }

  /** A string format is accepted exactly when it is on the list. */
  lemma StringFormatAcceptedIffListed(config: Value, f: string, nodeEnv: Option<string>)
    requires Prop(Prop(config, "log"), "format") == Str(f)
    ensures GetLogFormat(config, nodeEnv).Normal?
    ensures GetLogFormat(config, nodeEnv).value.format == f <==> f in ValidFormats
  {
  }

  /** The format is converted with `toString()` before the check, so a
      one-element array holding a listed name is accepted and a number is
      not. */
  lemma FormatIsStringified()
    ensures GetLogFormat(Obj(map["log" := Obj(map["format" := Arr([Str("dev")])])]), None)
      == Normal(FormatChoice("dev", None))
    ensures GetLogFormat(Obj(map["log" := Obj(map["format" := Num(5)])]), None)
      == Normal(FormatChoice(DefaultFormat, Some(InvalidLogFormat)))
  {
    var arrayConfig := Obj(map["log" := Obj(map["format" := Arr([Str("dev")])])]);
    assert Stringable(Arr([Str("dev")]));
    assert ToString(Arr([Str("dev")])) == "dev";
    assert RequestedFormat(arrayConfig) == Normal("dev");
    assert IntToString(5) == "5";
    assert "5" !in ValidFormats;
  }

  /** A format object with its own `toString` setting is not converted:
      `getLogFormat` throws instead of falling back to `combined`. */
  lemma OwnToStringFormatThrows()
    ensures GetLogFormat(Obj(map["log" := Obj(map["format" := Obj(map["toString" := Str("dev")])])]), None) == Throw
  {
    var format := Obj(map["toString" := Str("dev")]);
    assert !Stringable(format);
    assert RequestedFormat(Obj(map["log" := Obj(map["format" := format])])) == Throw;
  }

  /* ---------------------------------------------------------------------- */
  /* getLogOptions                                                           */
  /* ---------------------------------------------------------------------- */

  /** The options object handed to winston's File transport. */
  datatype LogOptions = LogOptions(
    level: string,
    colorize: bool,
    filename: string,
    timestamp: bool,
    maxsize: Value,
    maxFiles: Value,
    json: Value,
    eol: string,
    tailable: bool,
    showLevel: bool,
    handleExceptions: bool,
    humanReadableUnhandledException: bool)

  /** The configuration `getLogOptions` reads: a truthy argument replaces the
      global configuration, which is otherwise read through a JSON copy.
      The copy is made in either case, so `GetLogOptions` first throws when
      the global configuration is `undefined`. */
  function OptionsSource(config: Value, configOptions: Value): Value
  {
    if Truthy(configOptions) then configOptions else JsonClone(config)
  }

  /** Whether the directory and the file name of a file-logger section can
      be concatenated into a path. */
  predicate PathSettingsConvert(fileLogger: Value) {
    Stringable(Prop(fileLogger, "directoryPath")) && Stringable(Prop(fileLogger, "fileName"))
  }

  /** `getLogOptions(configOptions)`. `None` is the `false` returned, with the
      line "unable to find logging file configuration", when the directory or
      the file name is missing; reading `log.fileLogger` throws when there is
      no `log` section at all, and building the path throws when the
      directory or the file name does not convert to a string. */
  function GetLogOptions(config: Value, configOptions: Value): (r: Completion<Option<LogOptions>>)
    // JSON.parse(JSON.stringify(undefined)) throws, whatever the argument
    ensures config == Undefined ==> r.Throw?
    ensures var c := OptionsSource(config, configOptions);
      r.Throw? <==>
        || config == Undefined || Nullish(c) || Nullish(Prop(c, "log"))
        || (&& Has(c, ["log", "fileLogger", "directoryPath"]) && Has(c, ["log", "fileLogger", "fileName"])
            && !PathSettingsConvert(At(c, ["log", "fileLogger"])))
    ensures var c := OptionsSource(config, configOptions);
      r.Normal? ==>
        (r.value.Some? <==> Has(c, ["log", "fileLogger", "directoryPath"]) && Has(c, ["log", "fileLogger", "fileName"]))
    ensures r.Normal? && r.value.Some? ==>
      var o := r.value.value;
      var fileLogger := At(OptionsSource(config, configOptions), ["log", "fileLogger"]);
      // the log file sits in the configured directory
      && o.filename == ToString(Prop(fileLogger, "directoryPath")) + "/" + ToString(Prop(fileLogger, "fileName"))
      // size and count limits fall back to their defaults when falsy, `0` included
      && o.maxsize == (if Truthy(Prop(fileLogger, "maxsize")) then Prop(fileLogger, "maxsize") else Num(DefaultMaxSize))
      && o.maxFiles == (if Truthy(Prop(fileLogger, "maxFiles")) then Prop(fileLogger, "maxFiles") else Num(DefaultMaxFiles))
      // `json` is taken as configured whenever the key is present, even when falsy
      && o.json == (if Has(fileLogger, ["json"]) then Prop(fileLogger, "json") else Bool(false))
      // the fixed settings
      && o.level == "debug" && !o.colorize && o.timestamp && o.eol == "\n" && o.tailable
      && o.showLevel && o.handleExceptions && o.humanReadableUnhandledException
  {
    var source := OptionsSource(config, configOptions);
    if config == Undefined || Nullish(source) || Nullish(Prop(source, "log")) then
      Throw
    else
      var configFileLogger := Prop(Prop(source, "log"), "fileLogger");
      if !Has(source, ["log", "fileLogger", "directoryPath"]) || !Has(source, ["log", "fileLogger", "fileName"]) then
        Normal(None)
      else if !PathSettingsConvert(configFileLogger) then
        Throw
      else
        var logPath := ToString(Prop(configFileLogger, "directoryPath")) + "/" + ToString(Prop(configFileLogger, "fileName"));
        var maxsize := Prop(configFileLogger, "maxsize");
        var maxFiles := Prop(configFileLogger, "maxFiles");
        Normal(Some(LogOptions(
          level := "debug",
          colorize := false,
          filename := logPath,
          timestamp := true,
          maxsize := if Truthy(maxsize) then maxsize else Num(DefaultMaxSize),
          maxFiles := if Truthy(maxFiles) then maxFiles else Num(DefaultMaxFiles),
          json := if Has(configFileLogger, ["json"]) then Prop(configFileLogger, "json") else Bool(false),
          eol := "\n",
          tailable := true,
          showLevel := true,
          handleExceptions := true,
          humanReadableUnhandledException := true)))
  }

  /** A truthy argument replaces the global configuration entirely: the
      global configuration then has no influence on the result. */
  lemma ExplicitOptionsReplaceConfig(config1: Value, config2: Value, configOptions: Value)
    requires Truthy(configOptions)
    requires config1 != Undefined && config2 != Undefined
    ensures GetLogOptions(config1, configOptions) == GetLogOptions(config2, configOptions)
  {
  }

  /** An `undefined` global configuration makes the JSON copy throw before the
      argument is looked at. */
  lemma UndefinedGlobalConfigThrows(configOptions: Value)
    ensures GetLogOptions(Undefined, configOptions) == Throw
  {
  }

  /** Reading the global configuration through a JSON copy is stable: a
      configuration that already is a JSON copy gives the same options. */
  lemma GlobalCopyIsStable(config: Value, configOptions: Value)
    requires !Truthy(configOptions)
    ensures GetLogOptions(JsonClone(config), configOptions) == GetLogOptions(config, configOptions)
  {
    JsonCloneIdempotent(config);
  }

  /** With the global configuration the file logger is configured exactly
      when the directory and the file name are present and not `undefined`;
      a setting explicitly left `undefined` counts as missing. */
  lemma GlobalFileLoggerConfigured(config: Value, configOptions: Value)
    requires !Truthy(configOptions)
    requires !Nullish(Prop(config, "log"))
    // with an object configuration only the conversion of present path settings can throw
    ensures config.Obj? && GetLogOptions(config, configOptions).Throw? ==>
      HasDefined(config, ["log", "fileLogger", "directoryPath"]) && HasDefined(config, ["log", "fileLogger", "fileName"])
    ensures var complete :=
        HasDefined(config, ["log", "fileLogger", "directoryPath"]) && HasDefined(config, ["log", "fileLogger", "fileName"]);
      config.Obj? && !complete ==> GetLogOptions(config, configOptions) == Normal(None)
    ensures GetLogOptions(config, configOptions).Normal? ==>
      (GetLogOptions(config, configOptions).value.Some? <==>
        HasDefined(config, ["log", "fileLogger", "directoryPath"]) && HasDefined(config, ["log", "fileLogger", "fileName"]))
  {
    HasAfterJsonClone(config, ["log", "fileLogger", "directoryPath"]);
    HasAfterJsonClone(config, ["log", "fileLogger", "fileName"]);
    if config.Obj? {
      PropAfterJsonClone(config, "log");
      JsonCloneKeepsKind(Prop(config, "log"));
    }
  }

  /** The file-logger settings of `UndefinedDirectoryIgnoredGlobally` and
      `UndefinedDirectoryPrintedFromArgument`: a directory explicitly left
      `undefined`. */
  function UndefinedDirectoryConfig(): Value
  {
    Obj(map["log" := Obj(map["fileLogger" := Obj(map["directoryPath" := Undefined, "fileName" := Str("app.log")])])])
  }

  /** Read from the global configuration, a directory left `undefined` is
      dropped by the JSON copy and counts as missing. */
  lemma UndefinedDirectoryIgnoredGlobally()
    ensures GetLogOptions(UndefinedDirectoryConfig(), Undefined) == Normal(None)
  {
    var c := UndefinedDirectoryConfig();
    assert !HasDefined(c, ["log", "fileLogger", "directoryPath"]);
    GlobalFileLoggerConfigured(c, Undefined);
  }

  /** Passed as the argument, the same configuration has the key, and its
      value is written into the path as "undefined". */
  lemma UndefinedDirectoryPrintedFromArgument()
    ensures GetLogOptions(EmptyObject, UndefinedDirectoryConfig()).Normal?
    ensures GetLogOptions(EmptyObject, UndefinedDirectoryConfig()).value.Some?
    ensures GetLogOptions(EmptyObject, UndefinedDirectoryConfig()).value.value.filename == "undefined/app.log"
  {
    var c := UndefinedDirectoryConfig();
    var fileLogger := Obj(map["directoryPath" := Undefined, "fileName" := Str("app.log")]);
    assert OptionsSource(EmptyObject, c) == c;
    assert Has(c, ["log", "fileLogger", "directoryPath"]);
    assert Has(c, ["log", "fileLogger", "fileName"]);
    assert At(c, ["log", "fileLogger"]) == fileLogger;
  }

  /** For string settings the log file path is the directory, a slash and the
      file name. */
  lemma LogPathJoinsStrings(configOptions: Value, dir: string, file: string)
    requires Truthy(configOptions)
    requires At(configOptions, ["log", "fileLogger", "directoryPath"]) == Str(dir)
    requires At(configOptions, ["log", "fileLogger", "fileName"]) == Str(file)
    ensures GetLogOptions(EmptyObject, configOptions).Normal?
    ensures GetLogOptions(EmptyObject, configOptions).value.Some?
    ensures GetLogOptions(EmptyObject, configOptions).value.value.filename == dir + "/" + file
  {
    var log := Prop(configOptions, "log");
    assert log.Obj? && "fileLogger" in log.fields;
  }

  /** A directory setting with its own `toString` makes building the path
      throw, although both settings are present. */
  lemma OwnToStringPathThrows()
    ensures var fileLogger := Obj(map["directoryPath" := Obj(map["toString" := Str("logs")]), "fileName" := Str("app.log")]);
      GetLogOptions(EmptyObject, Obj(map["log" := Obj(map["fileLogger" := fileLogger])])) == Throw
  {
    var fileLogger := Obj(map["directoryPath" := Obj(map["toString" := Str("logs")]), "fileName" := Str("app.log")]);
    var c := Obj(map["log" := Obj(map["fileLogger" := fileLogger])]);
    assert Has(c, ["log", "fileLogger", "directoryPath"]);
    assert Has(c, ["log", "fileLogger", "fileName"]);
    assert !PathSettingsConvert(fileLogger);
  }

  /* ---------------------------------------------------------------------- */
  /* setupFileLogger                                                         */
  /* ---------------------------------------------------------------------- */

  /** What `setupFileLogger` returned and did to the logger. */
  datatype Setup = Setup(ok: bool, transportAdded: bool, consoleRemoved: bool, diag: Option<Diag>)

  /** `log.fileOnly` asks for the console transport to be dropped. */
  predicate FileOnly(config: Value) {
    Has(config, ["log", "fileOnly"]) && Truthy(At(config, ["log", "fileOnly"]))
  }

  /** `setupFileLogger`. It calls `getLogOptions()` without an argument, so
      its own argument is unused. `openFd` is the descriptor
      `fs.openSync(filename, 'a+')` returns, `None` when it throws. */
  function SetupFileLogger(config: Value, nodeEnv: Option<string>, openFd: Option<nat>): (r: Completion<Setup>)
    // a throw in getLogOptions escapes: it happens before the try block
    ensures r.Throw? <==> GetLogOptions(config, Undefined).Throw?
    // no file-logger settings: `false`, and the logger is left alone
    ensures GetLogOptions(config, Undefined) == Normal(None) ==> r == Normal(Setup(false, false, false, Some(NoFileLoggerConfig)))
    ensures r.Normal? ==> (r.value.ok <==> GetLogOptions(config, Undefined).value.Some? && openFd.Some?)
    // the file transport is added only once the file opened
    ensures r.Normal? ==> (r.value.transportAdded <==> r.value.ok && openFd.value != 0)
    ensures r.Normal? ==> (r.value.consoleRemoved <==> r.value.ok && FileOnly(config))
    ensures r.Normal? && GetLogOptions(config, Undefined).value.Some? && openFd.None? ==>
      (r.value.diag.Some? <==> nodeEnv != Some("test"))
    ensures r.Normal? && r.value.ok ==> r.value.diag.None?
    // the line printed is the one for the failed open
    ensures r.Normal? && r.value.diag.Some? && GetLogOptions(config, Undefined).value.Some? ==>
      r.value.diag.value == FileTransportFailed
  {
    match GetLogOptions(config, Undefined)
    case Throw => Throw
    case Normal(None) => Normal(Setup(false, false, false, Some(NoFileLoggerConfig)))
    case Normal(Some(options)) =>
      match openFd
      case None =>
        Normal(Setup(false, false, false, if nodeEnv != Some("test") then Some(FileTransportFailed) else None))
      case Some(fd) =>
        Normal(Setup(true, fd != 0, FileOnly(config), None))
  }
}
